=== FILE: README.md ===
# Bot-farm lease engine, modelled in Dafny

The bot farm keeps a pool of shared bot accounts ("users") in one table. A
client asks for a free account, leases it, uses it and releases it. Each user
record has an immutable `id` and `created_at` and a nullable `locktime`:
`None` means the account is free, a timestamp means it is leased and records
when the lease was taken. Leases older than `lock_timeout_seconds` (default
300) are cleared in bulk ("reaped") whenever a client asks for a free account.

The model is a sequential, functional state machine over the table, held as a
`map<Uuid, User>`. Every operation is a pure function (or a method, where a
loop does the work) from a store to a result and a new store. Time is whole
seconds, passed in as `now`; the timeout is a parameter. The repository has
two near-duplicate services, an asynchronous one (`app/`) and a synchronous
one (`botofarm/app/`). They share one state machine here and one result type:
`Ok(...)`, or `Err` with `NotFound`, `Conflict`, `NoFree`, `DuplicateLogin`,
`ValueTooLong`, `IdCollision` or `LoginCollision`.

Modules:

- `Users` (`users.dfy`): the record, the store, the table invariants
  (primary key, unique login), the result types and messages, and the
  per-record lease state machine (`Free`, `Leased(since)`) with its allowed
  transitions.
- `Reaper` (`reaper.dfy`): the bulk clear of stale leases.
- `Allocator` (`allocator.dfy`): `get_free_user`, which reaps and then picks
  the oldest free user.
- `Leases` (`leases.dfy`): `acquire_lock` and `release_lock`.
- `Directory` (`directory.dfy`): `create_user` and `get_users`.
- `Scenarios` (`scenarios.dfy`): the service's API tests, restated as
  sequences of model operations.

The stand-ins for things outside the model:

- The clock is the `now` parameter.
- `uuid4()` is the `newId` parameter of `CreateUser`.
- Password hashing is the `hash` function parameter.
- The configured timeout is the `timeout` parameter, with
  `DefaultLockTimeoutSeconds` = 300.

Two details of the code fix the model's behaviour at the edges:

- The bulk update clears a lease only when `locktime < now - timeout`, a
  strict comparison. A lease taken at `T` with timeout `S` is therefore still
  held at `T + S` and free from `T + S + 1` on
  (`Reaper.LeaseAtCutoffSurvives`).
- Pick-free with no free user fails with a 404 and the detail "No free users
  available."; the model calls this outcome `NoFree`.

## Model

| member | source | states |
|---|---|---|
| `Users.TransitionNeverRenews` | app/services/user_service.py:105-111 | under the allowed transitions, a leased record that is still leased afterwards is unchanged: a lease is never moved to a new time in place |
| `Users.LocktimeChangesKeepValid` | app/models/user.py:33-50 | changing only lease fields keeps every record under its own primary key and keeps logins unique |
| `Reaper.Reap` | app/services/user_service.py:61-70 | only `locktime` changes; every change is a Leased-to-Free transition; a user is free afterwards iff it was free or its lease is older than `now - timeout` (strict); surviving leases keep their timestamp |
| `Reaper.LeaseExpiry` | app/services/user_service.py:61-66 | a user leased at `t` is free after a reap at `now` iff more than `timeout` seconds have passed |
| `Reaper.LeaseAtCutoffSurvives` | app/services/user_service.py:66 | a lease taken exactly at the cutoff is not cleared |
| `Reaper.DefaultTimeoutExpiry` | app/core/config.py:8 | with the default 300-second timeout, a lease survives a reap 300 s later and is cleared by one 301 s later |
| `Reaper.ReapKeepsFreeFree` | app/services/user_service.py:63-67 | reaping never leases a free user |
| `Reaper.ReapIdempotent` | app/services/user_service.py:63-69 | a second reap at the same instant leaves the store the first reap left |
| `Reaper.ReapMonotoneInTime` | app/services/user_service.py:61-66 | a user freed by a reap at `now` is also freed by a reap at any later time |
| `Reaper.ReapKeepsValid` | app/services/user_service.py:63-69 | reaping keeps the primary-key and unique-login invariants |
| `Allocator.SelectOldestFree` | app/services/user_service.py:72-79 | finds nothing iff no user is free; otherwise returns a free user whose `created_at` is no later than that of any free user |
| `Allocator.GetFreeUser` | app/services/user_service.py:56-87 | the store afterwards is exactly the reaped store, whatever the outcome; fails with NoFree (detail "No free users available.") iff no user is free after reaping; otherwise returns a stored, free user with minimal `created_at` among the free users, without leasing it |
| `Allocator.OlderFreeUserWins` | app/services/user_service.py:72-77 | while an older user is free, a younger free user is never the pick |
| `Allocator.OldestFreeExists` | app/services/user_service.py:72-79 | whenever some user is free, an oldest free user exists, so the select cannot come back empty |
| `Allocator.OldestFreeTiesOnly` | app/services/user_service.py:75-76 | two candidates for the pick were created at the same instant |
| `Allocator.ExhaustedPoolStaysExhausted` | app/services/user_service.py:61-85 | when every user holds a lease no older than the timeout, no user is free after the reap, so pick-free fails |
| `Leases.AcquireLock` | app/services/user_service.py:89-121 | NotFound iff the id is absent and Conflict iff the user is leased, both leaving the store unchanged; otherwise answers `{id, locked, locktime = now, "User successfully locked."}`, leases that user at `now`, and changes no other column or user |
| `Leases.ReleaseLock` | app/services/user_service.py:124-159 | NotFound iff the id is absent, store unchanged; otherwise answers `{id, not locked, no locktime}` with "User was not locked." iff the user was free (store unchanged) and "User successfully unlocked." iff it was leased; the user is free afterwards and nothing else changes |
| `Leases.ReleaseIdempotent` | app/services/user_service.py:140-152 | releasing twice leaves the same store as releasing once |
| `Leases.SecondReleaseReportsNotLocked` | botofarm/app/services/user_service.py:82-89 | the second of two releases of a found user reports "User was not locked." |
| `Leases.AcquireThenReleaseRestores` | botofarm/app/services/user_service.py:60-101 | release after a successful acquire restores the original store and reports "User successfully unlocked." |
| `Leases.AcquireTwiceConflicts` | botofarm/app/services/user_service.py:54-58 | an acquire after a successful acquire, at any time, is a Conflict with the store unchanged |
| `Leases.AtMostOneAcquireWins` | app/services/user_service.py:105-121 | of any sequence of acquires on one id, exactly one succeeds if the user was free and none otherwise; the user is leased at the end |
| `Leases.AcquireKeepsValid` | app/services/user_service.py:111-114 | acquire keeps the primary-key and unique-login invariants |
| `Leases.ReleaseKeepsValid` | app/services/user_service.py:149-152 | release keeps the primary-key and unique-login invariants |
| `Directory.Stored` | alembic/versions/69cd2fed3740_create_users_table.py:31-39 | what a varchar column keeps of a value it accepts: at most the column width, a prefix of the value, either the whole value or exactly the width, and only spaces dropped |
| `Directory.StoredFitting` | alembic/versions/69cd2fed3740_create_users_table.py:31-39 | a value no wider than its column is accepted and stored unchanged |
| `Directory.RefusedWhenNonSpaceExcess` | alembic/versions/69cd2fed3740_create_users_table.py:31-39 | a value with any character other than a space beyond its column width is refused |
| `Directory.CreateUser` | app/services/user_service.py:16-45 | DuplicateLogin iff the login is taken; otherwise ValueTooLong iff the login, password hash, `env` or `domain` is longer than its column (255, 255, 50, 50 characters) with some character other than a space beyond the width; otherwise IdCollision iff the id is taken; otherwise LoginCollision iff the login as stored is taken; success iff none of these; no store change on error; on success adds exactly one record under the new id with `created_at = now`, no lease, and the login, hashed password, `env` and `domain` as their columns store them; keeps the table invariants |
| `Directory.CreateKeepsExisting` | botofarm/app/services/user_service.py:23-31 | creating an account leaves every existing record as it was |
| `Directory.DuplicateLoginRejected` | botofarm/app/services/user_service.py:16-21 | after a successful create, a second create with the same input is refused with no store change; when the login fits its column the refusal is DuplicateLogin with detail "User with this login already exists." |
| `Directory.InsertNewestFirst` | botofarm/app/services/user_service.py:38 | inserting into a newest-first list keeps it newest-first and adds exactly that one user |
| `Directory.GetUsers` | app/services/user_service.py:48-54 | lists one entry per stored user, ordered by `created_at` descending, containing exactly the stored users; with keys matching ids, the list is a permutation of the stored records |
| `Scenarios.AcquireNewUser` | botofarm/tests/test_users_api.py:48-62 | a freshly created account can be acquired at once, with `locked` true, a locktime and "User successfully locked." |
| `Scenarios.AcquireNewUserTwice` | botofarm/tests/test_users_api.py:65-79 | the second acquire of a new account is a Conflict with detail "User is already locked." that keeps the first lease |
| `Scenarios.AcquireReleaseNewUser` | botofarm/tests/test_users_api.py:82-100 | acquire then release of a new account answers "User successfully unlocked." and returns to the post-create store |
| `Scenarios.ReleaseNewUser` | botofarm/tests/test_users_api.py:103-117 | releasing a never-acquired account answers "User was not locked." and changes nothing |
| `Scenarios.UnknownIdReportsNotFound` | botofarm/tests/test_users_api.py:120-133 | acquire and release on an id nobody holds both fail with NotFound and detail "User not found.", changing nothing |
| `Scenarios.AbandonedLeaseIsReaped` | app/services/user_service.py:61-70 | a lease left unreleased is cleared by the first reap more than `timeout` seconds later, restoring the record |
| `Scenarios.OlderPickedThenNext` | app/services/user_service.py:72-79 | once the oldest free user is acquired, the next-oldest free user becomes the pick |

## Left out

- Database sessions, `commit` and `refresh`, and the migration scripts, apart from the column widths `CreateUser` checks. The table is the map; each operation's result is its committed state.
- Transaction isolation and concurrency. This includes the read-then-write race in `acquire_lock` and the window between pick-free and acquire. Operations are modelled one at a time; `Leases.AtMostOneAcquireWins` is the sequential form of mutual exclusion.
- The HTTP routers and the mapping of errors to status codes (404, 409, 400). The `Error` constructors and `Users.Detail` take their place.
- Authentication and tokens: `authenticate_user`, `verify_password`, `get_user_by_login` and `get_user_by_id`. The login lookup inside `create_user` is modelled as `LoginTaken`; the id lookup inside acquire and release is map membership.
- Password hashing: it is a library call, so `CreateUser` takes it as an opaque function parameter.
- Health checks, settings loading and request validation (email format, password length). These do not touch the lease state.
- Wall-clock and time-zone details (`now(timezone.utc)` against `utcnow()`, sub-second precision). Time is whole seconds passed in as `now`.
- `Directory.CreateUser`: the source checks neither the id nor the value widths; the database does both when the insert commits. A clashing `uuid4()` is refused by the primary key. A value longer than its varchar column is refused unless every character beyond the width is a space; such a value is stored cut to the width. A cut login can then equal a stored login that the service's own lookup did not match, and the unique login index refuses it. The model reports these as `IdCollision`, `ValueTooLong` and `LoginCollision`. Their detail strings, "Duplicate primary key.", "Value too long for its column." and "Duplicate login in the unique index.", are the model's own, since the service attaches no text to those database errors. The widths are the ones the table migration creates (alembic/versions/69cd2fed3740_create_users_table.py:31-39): login 255, password 255, env 50, domain 50. The ORM model declares `env` and `domain` as String(32), but that width only applies to tables built from the ORM metadata, such as the tests' SQLite database, which does not enforce widths. Which commit error the database reports first when several apply is not modelled; the model reports the width error, then the id clash, then the login clash.
- `Allocator.GetFreeUser`: which of several equally old free users is returned is left open, as the query leaves it open. `GetUsers` likewise promises no order among users created at the same instant.

=== FILE: allocator.dfy ===
/**
 The allocator behind `get_free_user`: reap stale leases, commit, then select
 the free user with the earliest `created_at`. It does not lease the user it
 returns; the caller acquires it separately.
 */
module Allocator {
  import opened Users
  import opened Reaper

  /** `k` holds a free user created no later than any other free user. */
  predicate IsOldestFree(s: Store, k: Uuid) {
    && k in s
    && IsFree(s[k])
    && forall j :: j in s && IsFree(s[j]) ==> s[k].createdAt <= s[j].createdAt
  }

  /**
   The `WHERE locktime IS NULL ORDER BY created_at ASC LIMIT 1` query. Which of
   several equally old free users is chosen is left open, as the query leaves
   it open.
   */
  method SelectOldestFree(s: Store) returns (r: Option<Uuid>)
    ensures r.None? <==> !HasFree(s)
    ensures r.Some? ==> IsOldestFree(s, r.value)
  {
    r := None;
    var pending := s.Keys;
    while pending != {}
      invariant pending <= s.Keys
      invariant r.Some? ==> r.value in s && IsFree(s[r.value])
      invariant r.Some? ==> forall j :: j in s && j !in pending && IsFree(s[j]) ==>
        s[r.value].createdAt <= s[j].createdAt
      invariant r.None? ==> forall j :: j in s && j !in pending ==> !IsFree(s[j])
      decreases pending
    {
      var k :| k in pending;
      pending := pending - {k};
      if IsFree(s[k]) && (r.None? || s[k].createdAt < s[r.value].createdAt) {
        r := Some(k);
      }
    }
  }

  /**
   `get_free_user`: the reaped store is the resulting store whether or not a
   free user is found, because the reap is committed before the select.
   */
  method GetFreeUser(s: Store, now: Timestamp, timeout: int) returns (r: Outcome<User>, s': Store)
    ensures s' == Reap(s, now, timeout)
    ensures r.Err? <==> !HasFree(s')
    ensures r.Err? ==> r.error == NoFree && Detail(r.error) == "No free users available."
    ensures r.Ok? ==> r.value in s'.Values && IsFree(r.value)
    ensures r.Ok? ==> forall k :: k in s' && IsFree(s'[k]) ==> r.value.createdAt <= s'[k].createdAt
    ensures r.Ok? && WellFormed(s) ==> IsOldestFree(s', r.value.id)
  {
    s' := Reap(s, now, timeout);
    var pick := SelectOldestFree(s');
    match pick
    case None =>
      r := Err(NoFree);
    case Some(k) =>
      r := Ok(s'[k]);
  }

  /**
   Oldest-created-first: while an older user is free, a younger one is never
   the pick.
   */
  lemma OlderFreeUserWins(s: Store, a: Uuid, b: Uuid)
    requires a in s && b in s && IsFree(s[a]) && IsFree(s[b])
    requires s[a].createdAt < s[b].createdAt
    ensures !IsOldestFree(s, b)
  {
  }

  /** Every pool with a free user has an oldest free user. */
  lemma {:induction false} OldestFreeExists(s: Store)
    requires HasFree(s)
    ensures exists k :: IsOldestFree(s, k)
    decreases |s|
  {
    var k :| k in s && IsFree(s[k]);
    var rest := map j | j in s && j != k :: s[j];
    assert rest.Keys == s.Keys - {k};
    assert forall j :: j in s && j != k ==> j in rest && rest[j] == s[j];
    if HasFree(rest) {
      OldestFreeExists(rest);
      var m :| IsOldestFree(rest, m);
      if s[k].createdAt < s[m].createdAt {
        assert IsOldestFree(s, k);
      } else {
        assert IsOldestFree(s, m);
      }
    } else {
      assert IsOldestFree(s, k);
    }
  }

  /** Two oldest free users were created at the same instant. */
  lemma OldestFreeTiesOnly(s: Store, a: Uuid, b: Uuid)
    requires IsOldestFree(s, a) && IsOldestFree(s, b)
    ensures s[a].createdAt == s[b].createdAt
  {
  }

  /**
   Exhaustion: when every user holds a lease that has not yet expired, the
   reap frees nobody and pick-free has nothing to offer.
   */
  lemma ExhaustedPoolStaysExhausted(s: Store, now: Timestamp, timeout: int)
    requires forall k :: k in s ==> !IsFree(s[k]) && now - s[k].locktime.value <= timeout
    ensures !HasFree(Reap(s, now, timeout))
  {
  }
}

=== FILE: directory.dfy ===
/**
 Account creation and listing: `create_user` (login uniqueness, new accounts
 start free) and `get_users` (newest first).
 */
module Directory {
  import opened Users

  /** The fields a caller supplies to create an account. */
  datatype UserCreate = UserCreate(
    login: string,
    password: string,
    projectId: Uuid,
    env: string,
    domain: string)

  /**
   A value a varchar column of `width` characters accepts: PostgreSQL refuses
   a longer value unless every character beyond the width is a space.
   */
  predicate FitsColumn(v: string, width: nat) {
    forall i :: width <= i < |v| ==> v[i] == ' '
  }

  /**
   What such a column stores of a value it accepts: the value itself when it
   fits, otherwise the value cut to the width, dropping only spaces.
   */
  function Stored(v: string, width: nat): (r: string)
    requires FitsColumn(v, width)
    ensures |r| <= width
    ensures r <= v
    ensures |r| == |v| || |r| == width
    ensures forall i :: |r| <= i < |v| ==> v[i] == ' '
  {
    if |v| <= width then v else v[..width]
  }

  /** A value that fits its column is stored unchanged. */
  lemma StoredFitting(v: string, width: nat)
    requires |v| <= width
    ensures FitsColumn(v, width) && Stored(v, width) == v
  {
  }

  /** A value with a character other than a space beyond the width is refused. */
  lemma RefusedWhenNonSpaceExcess(v: string, width: nat, i: nat)
    requires width <= i < |v| && v[i] != ' '
    ensures !FitsColumn(v, width)
  {
  }

  /**
   The row to insert is accepted by the table's varchar columns. The password
   column holds the hash, so it is the hash that must be accepted.
   */
  predicate FitsColumns(input: UserCreate, passwordHash: string) {
    && FitsColumn(input.login, LoginWidth)
    && FitsColumn(passwordHash, PasswordWidth)
    && FitsColumn(input.env, EnvWidth)
    && FitsColumn(input.domain, DomainWidth)
  }

  /** The login as its column stores it. */
  function StoredLogin(input: UserCreate): string
    requires FitsColumn(input.login, LoginWidth)
  {
    Stored(input.login, LoginWidth)
  }

  /**
   `create_user`. The fresh primary key `newId` and the clock reading `now`
   are supplied by the caller (the model's stand-ins for `uuid4()` and the
   clock), and `hash` stands for the password-hashing function. A taken login
   is refused first. The insert itself is refused at commit when a column
   refuses its value, when the primary key already holds the id, or when the
   unique login index already holds the login as stored. Otherwise exactly one
   free record is added, holding each value as its column stores it.
   */
  function CreateUser(s: Store, input: UserCreate, newId: Uuid, now: Timestamp,
                      hash: string -> string): (r: Step<User>)
    ensures r.result == Err(DuplicateLogin) <==> LoginTaken(s, input.login)
    ensures r.result == Err(ValueTooLong) <==>
      !LoginTaken(s, input.login) && !FitsColumns(input, hash(input.password))
    ensures r.result == Err(IdCollision) <==>
      !LoginTaken(s, input.login) && FitsColumns(input, hash(input.password)) && newId in s
    ensures r.result == Err(LoginCollision) <==>
      && !LoginTaken(s, input.login) && FitsColumns(input, hash(input.password)) && newId !in s
      && LoginTaken(s, StoredLogin(input))
    ensures r.result.Ok? <==>
      && !LoginTaken(s, input.login) && FitsColumns(input, hash(input.password)) && newId !in s
      && !LoginTaken(s, StoredLogin(input))
    ensures r.result.Err? ==> r.store == s
    ensures r.result.Ok? ==>
      && newId !in s
      && r.store == s[newId := r.result.value]
      && r.result.value.id == newId
      && r.result.value.createdAt == now
      && r.result.value.login == Stored(input.login, LoginWidth)
      && r.result.value.password == Stored(hash(input.password), PasswordWidth)
      && r.result.value.projectId == input.projectId
      && r.result.value.env == Stored(input.env, EnvWidth)
      && r.result.value.domain == Stored(input.domain, DomainWidth)
      && IsFree(r.result.value)
    ensures Valid(s) ==> Valid(r.store)
  {
    if LoginTaken(s, input.login) then
      Step(Err(DuplicateLogin), s)
    else if !FitsColumns(input, hash(input.password)) then
      Step(Err(ValueTooLong), s)
    else if newId in s then
      Step(Err(IdCollision), s)
    else if LoginTaken(s, StoredLogin(input)) then
      Step(Err(LoginCollision), s)
    else
      var user := User(newId, now, StoredLogin(input),
                       Stored(hash(input.password), PasswordWidth),
                       input.projectId, Stored(input.env, EnvWidth),
                       Stored(input.domain, DomainWidth), None);
      Step(Ok(user), s[newId := user])
  }

  /** Creating an account never touches the existing ones. */
  lemma CreateKeepsExisting(s: Store, input: UserCreate, newId: Uuid, now: Timestamp,
                            hash: string -> string, k: Uuid)
    requires k in s
    ensures k in CreateUser(s, input, newId, now, hash).store
    ensures CreateUser(s, input, newId, now, hash).store[k] == s[k]
  {
  }

  /**
   A second creation with the same login is refused and changes nothing. When
   the login fits its column the service's own check refuses it; a login cut
   on the first insert is refused by the unique index or, on an id clash, by
   the primary key.
   */
  lemma DuplicateLoginRejected(s: Store, input: UserCreate, id1: Uuid, id2: Uuid,
                               t1: Timestamp, t2: Timestamp, hash: string -> string)
    requires CreateUser(s, input, id1, t1, hash).result.Ok?
    ensures var s1 := CreateUser(s, input, id1, t1, hash).store;
      && CreateUser(s1, input, id2, t2, hash).result.Err?
      && CreateUser(s1, input, id2, t2, hash).store == s1
    ensures |input.login| <= LoginWidth ==>
      var s1 := CreateUser(s, input, id1, t1, hash).store;
      && CreateUser(s1, input, id2, t2, hash) == Step(Err(DuplicateLogin), s1)
      && Detail(CreateUser(s1, input, id2, t2, hash).result.error)
         == "User with this login already exists."
  {
    var s1 := CreateUser(s, input, id1, t1, hash).store;
    assert s1[id1].login == StoredLogin(input);
  }

  /** Newest first: `created_at` never increases along the list. */
  predicate NewestFirst(xs: seq<User>) {
    forall i, j :: 0 <= i < j < |xs| ==> xs[i].createdAt >= xs[j].createdAt
  }

  /** Puts `u` into a newest-first list, ahead of any user created at the same instant. */
  function InsertNewestFirst(xs: seq<User>, u: User): (r: seq<User>)
    requires NewestFirst(xs)
    ensures NewestFirst(r)
    ensures |r| == |xs| + 1
    ensures forall v :: v in r <==> v in xs || v == u
    ensures multiset(r) == multiset(xs) + multiset{u}
    decreases |xs|
  {
    if |xs| == 0 || xs[0].createdAt <= u.createdAt then
      [u] + xs
    else
      var head, tail := xs[0], InsertNewestFirst(xs[1..], u);
      assert xs == [head] + xs[1..];
      assert forall v :: v in tail ==> head.createdAt >= v.createdAt;
      [head] + tail
  }

  /** The records stored under the keys in `ks`. */
  function RecordsOf(s: Store, ks: set<Uuid>): set<User>
    requires ks <= s.Keys
  {
    set k | k in ks :: s[k]
  }

  /** Taking one more key adds its record, and a new one when keys match ids. */
  lemma RecordsOfGrow(s: Store, ks: set<Uuid>, k: Uuid)
    requires ks <= s.Keys && k in s && k !in ks
    ensures RecordsOf(s, ks + {k}) == RecordsOf(s, ks) + {s[k]}
    ensures WellFormed(s) ==>
      multiset(RecordsOf(s, ks + {k})) == multiset(RecordsOf(s, ks)) + multiset{s[k]}
  {
  }

  /**
   `get_users`: every stored user exactly once, ordered by `created_at`
   descending. Users created at the same instant come in no promised order.
   */
  method GetUsers(s: Store) returns (r: seq<User>)
    ensures NewestFirst(r)
    ensures |r| == |s|
    ensures forall u :: u in r <==> u in s.Values
    ensures WellFormed(s) ==> multiset(r) == multiset(s.Values)
  {
    r := [];
    var pending := s.Keys;
    ghost var done: set<Uuid> := {};
    while pending != {}
      invariant pending <= s.Keys
      invariant done == s.Keys - pending
      invariant NewestFirst(r)
      invariant |r| == |done|
      invariant forall u :: u in r <==> u in RecordsOf(s, done)
      invariant WellFormed(s) ==> multiset(r) == multiset(RecordsOf(s, done))
      decreases pending
    {
      var k :| k in pending;
      r := InsertNewestFirst(r, s[k]);
      RecordsOfGrow(s, done, k);
      pending := pending - {k};
      done := done + {k};
    }
    assert RecordsOf(s, done) == s.Values;
  }
}

=== FILE: leases.dfy ===
/**
 The lease manager: `acquire_lock` and `release_lock`, keyed by user id. The
 asynchronous and the synchronous service implement the same state machine;
 they differ only in which clock supplies `now`, which is a parameter here.
 */
module Leases {
  import opened Users

  /**
   `acquire_lock`: a missing id is NotFound, a leased user is Conflict (both
   leave the store as it was); a free user is leased at `now` and nothing
   else changes.
   */
  function AcquireLock(s: Store, id: Uuid, now: Timestamp): (r: Step<LockResponse>)
    ensures r.result.Err? ==> r.store == s
    ensures r.result == Err(NotFound) <==> id !in s
    ensures r.result == Err(Conflict) <==> id in s && !IsFree(s[id])
    ensures r.result.Ok? <==> id in s && IsFree(s[id])
    ensures r.result.Ok? ==>
      && r.result.value == LockResponse(id, true, Some(now), LockedMessage)
      && OthersUnchanged(s, r.store, id)
      && StateOf(r.store[id]) == Leased(now)
      && SameRecord(s[id], r.store[id])
    ensures LeaseTransitions(s, r.store)
  {
    if id !in s then
      Step(Err(NotFound), s)
    else if s[id].locktime.Some? then
      Step(Err(Conflict), s)
    else
      Step(Ok(LockResponse(id, true, Some(now), LockedMessage)),
           s[id := s[id].(locktime := Some(now))])
  }

  /**
   `release_lock`: a missing id is NotFound; a free user is reported as not
   locked with the store untouched; a leased user is freed and nothing else
   changes. Either way a found user is free afterwards.
   */
  function ReleaseLock(s: Store, id: Uuid): (r: Step<LockResponse>)
    ensures r.result.Err? <==> id !in s
    ensures r.result.Err? ==> r.result.error == NotFound && r.store == s
    ensures r.result.Ok? ==>
      && r.result.value.id == id
      && !r.result.value.locked
      && r.result.value.locktime.None?
      && (r.result.value.message == NotLockedMessage <==> IsFree(s[id]))
      && (r.result.value.message == UnlockedMessage <==> !IsFree(s[id]))
      && OthersUnchanged(s, r.store, id)
      && IsFree(r.store[id])
      && SameRecord(s[id], r.store[id])
    ensures id in s && IsFree(s[id]) ==> r.store == s
    ensures LeaseTransitions(s, r.store)
  {
    if id !in s then
      Step(Err(NotFound), s)
    else if s[id].locktime.None? then
      Step(Ok(LockResponse(id, false, None, NotLockedMessage)), s)
    else
      Step(Ok(LockResponse(id, false, None, UnlockedMessage)),
           s[id := s[id].(locktime := None)])
  }

  /** Releasing twice leaves the store that releasing once leaves. */
  lemma ReleaseIdempotent(s: Store, id: Uuid)
    ensures ReleaseLock(ReleaseLock(s, id).store, id).store == ReleaseLock(s, id).store
  {
  }

  /** The second of two releases of a found user always reports "was not locked". */
  lemma SecondReleaseReportsNotLocked(s: Store, id: Uuid)
    requires id in s
    ensures ReleaseLock(ReleaseLock(s, id).store, id).result
         == Ok(LockResponse(id, false, None, NotLockedMessage))
  {
  }

  /** Release undoes a successful acquire exactly. */
  lemma AcquireThenReleaseRestores(s: Store, id: Uuid, now: Timestamp)
    requires AcquireLock(s, id, now).result.Ok?
    ensures ReleaseLock(AcquireLock(s, id, now).store, id).store == s
    ensures ReleaseLock(AcquireLock(s, id, now).store, id).result
         == Ok(LockResponse(id, false, None, UnlockedMessage))
  {
  }

  /** Once acquired, a user refuses every further acquire until released. */
  lemma AcquireTwiceConflicts(s: Store, id: Uuid, now: Timestamp, later: Timestamp)
    requires AcquireLock(s, id, now).result.Ok?
    ensures AcquireLock(AcquireLock(s, id, now).store, id, later)
         == Step(Err(Conflict), AcquireLock(s, id, now).store)
  {
  }

  /** The tally of a run of acquire attempts: how many succeeded, and the store left. */
  datatype Tally = Tally(wins: nat, store: Store)

  /** Acquire attempts on one id at the given instants, in order. */
  function AcquireAttempts(s: Store, id: Uuid, times: seq<Timestamp>): Tally
    decreases |times|
  {
    if |times| == 0 then
      Tally(0, s)
    else
      var first := AcquireLock(s, id, times[0]);
      var rest := AcquireAttempts(first.store, id, times[1..]);
      Tally((if first.result.Ok? then 1 else 0) + rest.wins, rest.store)
  }

  /**
   Mutual exclusion, sequentially: of any number of acquire attempts on one
   id, at most one succeeds; exactly one if the user was free to begin with,
   none if it was leased or absent.
   */
  lemma {:induction false} AtMostOneAcquireWins(s: Store, id: Uuid, times: seq<Timestamp>)
    ensures AcquireAttempts(s, id, times).wins
         == (if |times| > 0 && id in s && IsFree(s[id]) then 1 else 0)
    ensures AcquireAttempts(s, id, times).store.Keys == s.Keys
    ensures |times| > 0 && id in s ==> !IsFree(AcquireAttempts(s, id, times).store[id])
    decreases |times|
  {
    if |times| > 0 {
      var first := AcquireLock(s, id, times[0]);
      AtMostOneAcquireWins(first.store, id, times[1..]);
      if id in s {
        assert !IsFree(first.store[id]);
      }
    }
  }

  lemma AcquireKeepsValid(s: Store, id: Uuid, now: Timestamp)
    requires Valid(s)
    ensures Valid(AcquireLock(s, id, now).store)
  {
  }

  lemma ReleaseKeepsValid(s: Store, id: Uuid)
    requires Valid(s)
    ensures Valid(ReleaseLock(s, id).store)
  {
  }
}

=== FILE: reaper.dfy ===
/**
 The lease reaper: the bulk update that `get_free_user` runs first, clearing
 every lease taken before `now - lock_timeout_seconds`.
 */
module Reaper {
  import opened Users

  /** The instant before which a lease counts as abandoned. */
  function Cutoff(now: Timestamp, timeout: int): Timestamp {
    now - timeout
  }

  /** The row filter of the bulk update: leased, and leased strictly before the cutoff. */
  predicate IsStale(u: User, cutoff: Timestamp) {
    u.locktime.Some? && u.locktime.value < cutoff
  }

  function ReapUser(u: User, cutoff: Timestamp): User {
    if IsStale(u, cutoff) then u.(locktime := None) else u
  }

  /**
   Clears the lease of every user whose lease is older than the timeout; every
   other user is left as it was.
   */
  function Reap(s: Store, now: Timestamp, timeout: int): (r: Store)
    ensures OnlyLocktimeChanged(s, r)
    ensures LeaseTransitions(s, r)
    ensures forall k :: k in s ==>
      (IsFree(r[k]) <==> IsFree(s[k]) || s[k].locktime.value + timeout < now)
    ensures forall k :: k in s && !IsFree(r[k]) ==> r[k] == s[k]
  {
    map k | k in s :: ReapUser(s[k], Cutoff(now, timeout))
  }

  /**
   The expiry is exact: a user leased at `t` is free after a reap at `now`
   exactly when more than `timeout` seconds have passed.
   */
  lemma LeaseExpiry(s: Store, k: Uuid, t: Timestamp, now: Timestamp, timeout: int)
    requires k in s && s[k].locktime == Some(t)
    ensures IsFree(Reap(s, now, timeout)[k]) <==> now - t > timeout
  {
  }

  /** A lease taken exactly `timeout` seconds ago survives the reap. */
  lemma LeaseAtCutoffSurvives(s: Store, k: Uuid, now: Timestamp, timeout: int)
    requires k in s && s[k].locktime == Some(now - timeout)
    ensures Reap(s, now, timeout)[k] == s[k]
  {
  }

  /**
   With the default five-minute timeout, a lease is still held by a reap 300
   seconds after it was taken and is cleared by one 301 seconds after.
   */
  lemma DefaultTimeoutExpiry(s: Store, k: Uuid, t: Timestamp)
    requires k in s && s[k].locktime == Some(t)
    ensures !IsFree(Reap(s, t + 300, DefaultLockTimeoutSeconds)[k])
    ensures IsFree(Reap(s, t + 301, DefaultLockTimeoutSeconds)[k])
  {
  }

  /** Reaping never leases anyone. */
  lemma ReapKeepsFreeFree(s: Store, k: Uuid, now: Timestamp, timeout: int)
    requires k in s && IsFree(s[k])
    ensures Reap(s, now, timeout)[k] == s[k]
  {
  }

  /** A second reap at the same instant finds nothing more to clear. */
  lemma ReapIdempotent(s: Store, now: Timestamp, timeout: int)
    ensures Reap(Reap(s, now, timeout), now, timeout) == Reap(s, now, timeout)
  {
  }

  /** Reaping later clears at least as much as reaping earlier. */
  lemma ReapMonotoneInTime(s: Store, k: Uuid, now: Timestamp, later: Timestamp, timeout: int)
    requires k in s && now <= later
    requires IsFree(Reap(s, now, timeout)[k])
    ensures IsFree(Reap(s, later, timeout)[k])
  {
  }

  lemma ReapKeepsValid(s: Store, now: Timestamp, timeout: int)
    requires Valid(s)
    ensures Valid(Reap(s, now, timeout))
  {
  }
}

=== FILE: scenarios.dfy ===
/**
 The service's end-to-end scenarios, stated over the model: each lemma starts
 from an account just created and follows one sequence of lease operations.
 */
module Scenarios {
  import opened Users
  import opened Reaper
  import opened Allocator
  import opened Leases
  import opened Directory

  /** The store right after `input` was created under `id` at `t`. */
  predicate CreatedAs(s: Store, input: UserCreate, id: Uuid, t: Timestamp,
                      hash: string -> string, s1: Store) {
    && CreateUser(s, input, id, t, hash).result.Ok?
    && s1 == CreateUser(s, input, id, t, hash).store
  }

  /** A new account can be acquired at once, and the response says so. */
  lemma AcquireNewUser(s: Store, input: UserCreate, id: Uuid, t: Timestamp,
                       hash: string -> string, s1: Store, now: Timestamp)
    requires CreatedAs(s, input, id, t, hash, s1)
    ensures AcquireLock(s1, id, now).result == Ok(LockResponse(id, true, Some(now), LockedMessage))
  {
  }

  /** A second acquire of a new account conflicts and leaves the first lease in place. */
  lemma AcquireNewUserTwice(s: Store, input: UserCreate, id: Uuid, t: Timestamp,
                            hash: string -> string, s1: Store, t1: Timestamp, t2: Timestamp)
    requires CreatedAs(s, input, id, t, hash, s1)
    ensures var s2 := AcquireLock(s1, id, t1).store;
      && AcquireLock(s2, id, t2) == Step(Err(Conflict), s2)
      && Detail(AcquireLock(s2, id, t2).result.error) == "User is already locked."
      && s2[id].locktime == Some(t1)
  {
  }

  /** Acquire then release brings a new account back to the store it was created in. */
  lemma AcquireReleaseNewUser(s: Store, input: UserCreate, id: Uuid, t: Timestamp,
                              hash: string -> string, s1: Store, now: Timestamp)
    requires CreatedAs(s, input, id, t, hash, s1)
    ensures var released := ReleaseLock(AcquireLock(s1, id, now).store, id);
      && released.result == Ok(LockResponse(id, false, None, UnlockedMessage))
      && released.store == s1
  {
  }

  /** Releasing an account that was never acquired only reports that it was not locked. */
  lemma ReleaseNewUser(s: Store, input: UserCreate, id: Uuid, t: Timestamp,
                       hash: string -> string, s1: Store)
    requires CreatedAs(s, input, id, t, hash, s1)
    ensures ReleaseLock(s1, id) == Step(Ok(LockResponse(id, false, None, NotLockedMessage)), s1)
  {
  }

  /** Acquire and release on an id nobody holds both report "User not found." */
  lemma UnknownIdReportsNotFound(s: Store, id: Uuid, now: Timestamp)
    requires id !in s
    ensures AcquireLock(s, id, now) == Step(Err(NotFound), s)
    ensures ReleaseLock(s, id) == Step(Err(NotFound), s)
    ensures Detail(AcquireLock(s, id, now).result.error) == "User not found."
    ensures Detail(ReleaseLock(s, id).result.error) == "User not found."
  {
  }

  /**
   A lease taken at `t0` and left unreleased is reaped by the first pick-free
   more than `timeout` seconds later, and the record is as it was before the
   acquire.
   */
  lemma AbandonedLeaseIsReaped(s: Store, id: Uuid, t0: Timestamp, now: Timestamp, timeout: int)
    requires id in s && IsFree(s[id])
    requires now > t0 + timeout
    ensures Reap(AcquireLock(s, id, t0).store, now, timeout)[id] == s[id]
  {
  }

  /**
   Two free accounts `a` older than `b`: `a` is the pick; once `a` is
   acquired, `b` becomes the pick if it was the oldest of the rest.
   */
  lemma OlderPickedThenNext(s: Store, a: Uuid, b: Uuid, now: Timestamp)
    requires IsOldestFree(s, a)
    requires b in s && b != a && IsFree(s[b])
    requires forall j :: j in s && j != a && IsFree(s[j]) ==> s[b].createdAt <= s[j].createdAt
    ensures IsOldestFree(AcquireLock(s, a, now).store, b)
  {
  }
}

=== FILE: users.dfy ===
/**
 The data model of the bot-account pool: one `User` record per account, kept
 in a store keyed by the record's id, and the result values every operation of
 the lease engine returns.

 Timestamps are whole seconds. A user's `locktime` is the lease field: `None`
 means the account is free, `Some(t)` means it was leased at time `t`.
 */
module Users {

  /** Stands for the 128-bit UUID primary key and for the `project_id` column. */
  type Uuid = nat

  /** Seconds on the service's clock. */
  type Timestamp = int

  datatype Option<+T> = None | Some(value: T)

  datatype User = User(
    id: Uuid,
    createdAt: Timestamp,
    login: string,
    password: string,
    projectId: Uuid,
    env: string,
    domain: string,
    locktime: Option<Timestamp>)

  /** The `users` table, keyed by primary key. */
  type Store = map<Uuid, User>

  /** Default of the `lock_timeout_seconds` setting. */
  const DefaultLockTimeoutSeconds: int := 300

  predicate IsFree(u: User) {
    u.locktime.None?
  }

  /** Two versions of one record that agree on every column except `locktime`. */
  predicate SameRecord(a: User, b: User) {
    && a.id == b.id
    && a.createdAt == b.createdAt
    && a.login == b.login
    && a.password == b.password
    && a.projectId == b.projectId
    && a.env == b.env
    && a.domain == b.domain
  }

  /** Every record is stored under its own primary key. */
  predicate WellFormed(s: Store) {
    forall k :: k in s ==> s[k].id == k
  }

  /** The `login` column is unique. */
  predicate LoginsUnique(s: Store) {
    forall j, k :: j in s && k in s && s[j].login == s[k].login ==> j == k
  }

  /** The invariant of every reachable store. */
  predicate Valid(s: Store) {
    WellFormed(s) && LoginsUnique(s)
  }

  predicate LoginTaken(s: Store, login: string) {
    exists k :: k in s && s[k].login == login
  }

  predicate HasFree(s: Store) {
    exists k :: k in s && IsFree(s[k])
  }

  /** `s'` differs from `s` at most in the `locktime` of some records. */
  predicate OnlyLocktimeChanged(s: Store, s': Store) {
    && s'.Keys == s.Keys
    && forall k :: k in s ==> SameRecord(s[k], s'[k])
  }

  /** `s'` differs from `s` at most in the record stored under `id`. */
  predicate OthersUnchanged(s: Store, s': Store, id: Uuid) {
    && s'.Keys == s.Keys
    && forall k :: k in s && k != id ==> s'[k] == s[k]
  }

  /** The error outcomes of the lease engine and of account creation. */
  datatype Error =
    | NotFound        // no user with the requested id
    | Conflict        // acquire on a user that is already leased
    | NoFree          // pick-free found every user leased
    | DuplicateLogin  // create with a login that is already taken
    | ValueTooLong    // create with a value its column refuses
    | IdCollision     // create with an id the primary key already holds
    | LoginCollision  // create whose login, as stored, the unique index already holds

  /**
   The `detail` text the service attaches to each error. `ValueTooLong`,
   `IdCollision` and `LoginCollision` are the exceptions: the service has no
   text for them (all three fail inside the commit with a database error), so
   their strings here are the model's own.
   */
  function Detail(e: Error): string {
    match e
    case NotFound => "User not found."
    case Conflict => "User is already locked."
    case NoFree => "No free users available."
    case DuplicateLogin => "User with this login already exists."
    case ValueTooLong => "Value too long for its column."
    case IdCollision => "Duplicate primary key."
    case LoginCollision => "Duplicate login in the unique index."
  }

  /** Widths of the `users` columns as the table migration creates them. */
  const LoginWidth: nat := 255
  const PasswordWidth: nat := 255
  const EnvWidth: nat := 50
  const DomainWidth: nat := 50

  const LockedMessage: string := "User successfully locked."
  const UnlockedMessage: string := "User successfully unlocked."
  const NotLockedMessage: string := "User was not locked."

  datatype LockResponse = LockResponse(
    id: Uuid,
    locked: bool,
    locktime: Option<Timestamp>,
    message: string)

  datatype Outcome<+T> = Ok(value: T) | Err(error: Error)

  /** What an operation answers together with the store it leaves behind. */
  datatype Step<+T> = Step(result: Outcome<T>, store: Store)

  /** Per-record lease states: the two states of the lease state machine. */
  datatype LeaseState = Free | Leased(since: Timestamp)

  function StateOf(u: User): (st: LeaseState)
    ensures st.Free? <==> IsFree(u)
    ensures st.Leased? ==> u.locktime == Some(st.since)
  {
    match u.locktime
    case None => Free
    case Some(t) => Leased(t)
  }

  /**
   The transitions the lease state machine allows a single record: stay put,
   Free to Leased (acquire), Leased to Free (release or reap). No other column
   ever changes.
   */
  predicate Transition(a: User, b: User) {
    && SameRecord(a, b)
    && (|| StateOf(a) == StateOf(b)
        || (StateOf(a).Free? && StateOf(b).Leased?)
        || (StateOf(a).Leased? && StateOf(b).Free?))
  }

  /** Every record of `s` took an allowed transition to reach `s'`. */
  predicate LeaseTransitions(s: Store, s': Store) {
    && s'.Keys == s.Keys
    && forall k :: k in s ==> Transition(s[k], s'[k])
  }

  /** A Leased-to-Leased move never happens: a lease is never renewed in place. */
  lemma TransitionNeverRenews(a: User, b: User)
    requires Transition(a, b)
    requires !IsFree(a) && !IsFree(b)
    ensures b == a
  {
  }

  /** A store that only changed in lease fields keeps the table invariant. */
  lemma LocktimeChangesKeepValid(s: Store, s': Store)
    requires Valid(s)
    requires OnlyLocktimeChanged(s, s')
    ensures Valid(s')
  {
  }
}
